=== FILE: README.md ===
# Flowistry core in Dafny

This project models three pieces of Flowistry, the information-flow analysis for Rust:

- **The indexed relation substrate** (`src/core/indexed.rs`). It has three parts:
  - an interning domain that maps values to dense indices and back;
  - index sets (a hybrid dense/sparse bitset) with union, subtract, intersect, size, equality and a lattice join;
  - an index matrix (a sparse bit matrix from row indices to column sets) with insert, row union, row queries, equality and a lattice join.
- **The recursive call inliner** `recurse_into_call` (`crates/flowistry/src/infoflow/recursive.rs`). At a call terminator the caller's analysis either declines or inlines the call. Declining covers these cases:
  - the callee is not a constant function item;
  - it returns `!`;
  - it is outside the local crate, which also raises the reached-library flag;
  - it has no body;
  - it uses unsafe blocks;
  - an argument's type carries an `FnOnce`/`FnMut` closure;
  - its body is already under analysis.

  Otherwise the inliner does four things:
  1. It takes the callee's flow from a per-analysis cache, computing it on a miss.
  2. It joins the callee's states at every `Return` terminator into a summary.
  3. It translates callee places into caller places: the return place and the arguments. An argument that was written translates only when it is reached through a dereference; every argument row may translate as an input. The translation stops the replayed projection at the first field the caller cannot see.
  4. It builds one mutation per summary row that was written. Those mutations go to the caller's transfer function.
- **The focus-mode direct-influence table** (`crates/flowistry_ide/src/focus/direct_influence.rs`).
  - `build` walks every mutation of a body. It records the mutation's location in the row of every alias of its inputs (read-only reachability) and of its mutated place (mutable reachability).
  - `lookup` lists, for every read-only alias of a target, the locations in that alias' row.

## How the model is laid out

- **`wrappers.dfy`**: `Option`.
- **`indexed.dfy`** (module `Indexed`):
  - An interning domain is two fields: `Domain(indexToValue, valueToIndex)`.
  - Bitsets are `set<nat>` tagged with their domain size.
  - The sparse matrix keeps the rustc layout: a vector of optional rows that grows to the highest row ever touched. An index below that row which was never touched holds `None`. This layout is what makes the `eq` finding below visible.
  - An in-place operation that returns a "changed" flag becomes a function that returns `Update(after, changed)`.
  - The generic branches of `subtract` and `intersect` are methods whose loops mirror the source's loops. The dense branches are functions. Each method is proved equal to its dense counterpart.
- **`places.dfy`**:
  - Module `Places` holds MIR places, projection elements and mutation records.
  - Module `PlaceMatrix` is the value-keyed matrix that `recursive.rs` and `direct_influence.rs` use: a place maps to a set of locations, and a place with no row reads as empty.
- **`recursive.dfy`** (module `Recursive`):
  - Every compiler query the inliner makes is a field of a `Compiler` value. This covers fn signatures, HIR lookups, the unsafety check, types, field visibility, projection typing, the callee's flow analysis, the caller's transfer function and the iteration order of a state's rows.
  - The thread-local body stack and reached-library flag, and the recursion cache, are an explicit `Env`. The call returns the updated `Env`.
- **`direct_influence.dfy`** (module `DirectInfluence`):
  - The mutation visitor's output is a sequence of `Step(location, mutations)`.
  - `reachable_values` is a function parameter that returns the alias set's iteration order.

## Model

| member | source | states |
|---|---|---|
| Indexed.IndexTable | src/core/indexed.rs:53-58 | exactly the listed values are interned; each value's index is in range and holds that value, and no later index holds it (the last occurrence wins) |
| Indexed.NewDomain | src/core/indexed.rs:52-63 | a domain built from a vector has that vector's length, interns exactly its values, and every interned index points back at its value |
| Indexed.ValueOfIndex | src/core/indexed.rs:70-76 | in a consistent domain, `value(index(v)) == v` for every interned `v` |
| Indexed.IndexOfValue | src/core/indexed.rs:70-76 | in a built domain, `index(value(i)) == i` exactly when no later index holds the same value |
| Indexed.DistinctRoundTrip | src/core/indexed.rs:52-76 | a domain built from distinct values satisfies both round trips |
| Indexed.EmptySet | src/core/indexed.rs:93-98 | a new index set is well formed over the domain's size and contains no index |
| Indexed.Insert | src/core/indexed.rs:115-117 | inserting an in-domain index adds exactly that index and keeps the set within its domain |
| Indexed.Remove | src/core/indexed.rs:128-130 | removal deletes exactly that index and reports whether it was present |
| Indexed.Union | src/core/indexed.rs:119-121 | the result is the union; the flag is set exactly when `other` had an index `self` lacked |
| Indexed.Subtract | src/core/indexed.rs:123-134 | the sparse loop leaves `self \ other` and reports a change exactly when the set shrank; it agrees with the dense branch |
| Indexed.SubtractDense | src/core/indexed.rs:124-125 | the dense branch leaves `self \ other` and reports a change exactly when the two sets meet |
| Indexed.Intersect | src/core/indexed.rs:140-157 | the collect-then-remove loops leave `self ∩ other` and report a change exactly when the set shrank; they agree with the dense branch |
| Indexed.IntersectDense | src/core/indexed.rs:141-142 | the dense branch leaves `self ∩ other` and reports a change exactly when `self` is not within `other` |
| Indexed.Size | src/core/indexed.rs:159-164 | the count is the number of indices the ascending iteration yields; it is zero exactly for the empty set and never exceeds the domain size |
| Indexed.SetEq | src/core/indexed.rs:166-182 | for two sets over one domain size (`superset` asserts it), mutual supersets hold exactly when the two sets have the same members |
| Indexed.JoinSelfOrEmpty | src/core/indexed.rs:186-190 | joining a set with itself or with the empty set changes nothing and reports no change |
| Indexed.JoinUpperBoundIdempotent | src/core/indexed.rs:186-190 | the join contains both operands, and a repeated join reports no change |
| Indexed.CollectIndices | src/core/indexed.rs:233-239 | an index is collected exactly when it is the index of one of the items |
| Indexed.Elements | src/core/indexed.rs:100-102 | a bitset yields each member exactly once, in ascending order |
| Indexed.NewMatrix | src/core/indexed.rs:250-256 | a new matrix is well formed over the column domain, and every row reads as empty |
| Indexed.RowSet | src/core/indexed.rs:285-294 | a row is a set over the column domain holding exactly the stored row's columns, and empty when the row was never stored |
| Indexed.RowIndices | src/core/indexed.rs:269-277 | the row's columns exactly, in ascending order; none for a row never stored |
| Indexed.Rows | src/core/indexed.rs:296-298 | every row index up to the highest stored one is listed, in order, stored or not; there are as many as the row vector is long, and the last one listed is stored |
| Indexed.MatrixInsert | src/core/indexed.rs:258-262 | adds exactly one pair, stores the row, leaves other rows alone, and reports whether the pair was new |
| Indexed.UnionIntoRow | src/core/indexed.rs:264-267 | unions the set into one row only, and reports whether the row gained a column |
| Indexed.JoinRows | src/core/indexed.rs:319-324 | after the loop has visited the first `k` row indices of `other`, those rows are unioned in and the flag says whether any of them grew |
| Indexed.MatrixJoin | src/core/indexed.rs:317-326 | every row becomes the union of both operands' rows; a row is stored when either operand stored it; the flag is set exactly when some row grew |
| Indexed.JoinRowsReportsGrowth | src/core/indexed.rs:319-325 | the loop's accumulated flag is "some row grew" |
| Indexed.MatrixJoinIdempotent | src/core/indexed.rs:317-326 | joining the same matrix a second time reports no change and adds nothing |
| Indexed.MatrixJoinSelfOrEmpty | src/core/indexed.rs:317-326 | joining with itself reports no change; joining with a new matrix returns it unchanged |
| Indexed.MatrixJoinMonotone | src/core/indexed.rs:317-326 | the join is monotone in the receiving matrix |
| Indexed.MatrixEqAsWritten | src/core/indexed.rs:301-313 | when `eq` as written answers true the matrices denote the same relation, and if they have any row index they have the same column count; `None` marks the `unwrap` panic and the domain-size assertion of `superset` |
| Indexed.MatrixEqPanicsOnColumnMismatch | src/core/indexed.rs:303-309 | two matrices over one and two columns, each with an empty row 0, denote the same relation, yet `eq` reaches `superset` on rows of different domain sizes and panics |
| Indexed.MatrixEqPanicsOnUntouchedRow | src/core/indexed.rs:303-305 | a matrix holding only `(1, 0)` makes `eq` panic when compared with itself, though the two sides are equal |
| Indexed.MatrixEqCountsStoredEmptyRows | src/core/indexed.rs:303 | a matrix whose row 0 was unioned with the empty set denotes the empty relation, as a new matrix does, yet `eq` as written answers false because the two row vectors differ in length |
| Indexed.MatrixEq | src/core/indexed.rs:301-313 | corrected equality over one column count (the source's `superset` assertion is kept): true exactly when every row has the same columns |
| PlaceMatrix.Insert | crates/flowistry_ide/src/focus/direct_influence.rs:21 | inserting `(place, location)` adds that location to that row only |
| PlaceMatrix.Join | crates/flowistry/src/infoflow/recursive.rs:136 | the joined state's row is the union of both rows, for every place |
| Recursive.Decide | crates/flowistry/src/infoflow/recursive.rs:38-115 | the inliner recurses exactly when all seven conditions hold, into the callee's own body; it reports "not local" exactly when the callee is a non-diverging function item outside the crate; a closure argument always blocks it |
| Recursive.ReturnState | crates/flowistry/src/infoflow/recursive.rs:125-138 | a place has a row in the summary exactly when some `Return` block's state has one, and each row is the union over the `Return` blocks |
| Recursive.Replay | crates/flowistry/src/infoflow/recursive.rs:173-196 | the replayed projection is never longer than the callee's |
| Recursive.ReplayCutsAtFirstHiddenField | crates/flowistry/src/infoflow/recursive.rs:173-196 | the replayed projection is the callee's, step by step with fields re-typed in the caller, up to and excluding the first field the caller cannot see; it stops there |
| Recursive.Translate | crates/flowistry/src/infoflow/recursive.rs:140-200 | a place fails to translate exactly when it has unit type, is neither the return place nor an argument (a mutated argument must be indirect), or its caller argument is not a place; otherwise the result is the caller base extended by the replayed projection |
| Recursive.Inputs | crates/flowistry/src/infoflow/recursive.rs:212-217 | the inputs are exactly the translations of the rows whose dependencies lie within the mutated row's |
| Recursive.ArgumentNumberAsWritten | crates/flowistry/src/infoflow/recursive.rs:229 | the recorded argument number as written always fits in a byte, and for caller locals 1 to 256 it is that local minus one |
| Recursive.MutationFor | crates/flowistry/src/infoflow/recursive.rs:202-236 | a row yields a mutation exactly when it translates and is the return place or has more than one dependency; the return place is a definite assignment; an argument `_k` is a possible mutation whose number is its position `k - 1`, and the caller argument at that position is the place the mutated place is rooted at; its inputs are the translations of the rows whose dependencies lie within this row's |
| Recursive.ArgumentNumberAsWrittenMisnamesArgument | crates/flowistry/src/infoflow/recursive.rs:226-230 | for `f(move _5)` writing through `_1`, the number as written is 4, which is no argument; the argument's position is 0 |
| Recursive.SharedBaseNamesWrittenArgument | crates/flowistry/src/infoflow/recursive.rs:160-166 | for `f(copy _5, copy _5)` whose callee writes through `_2`, the mutation is of `(*_5)` and names position 1, the argument written, though both arguments are rooted at `_5` |
| Recursive.Mutations | crates/flowistry/src/infoflow/recursive.rs:202-237 | the emitted mutations are exactly those the rows produce, at most one per row |
| Recursive.InputsAreSmallerRows | crates/flowistry/src/infoflow/recursive.rs:212-217 | a place is an input of an emitted mutation exactly when it is the translation of a row whose dependencies lie within the mutated row's |
| Recursive.CallMutations | crates/flowistry/src/infoflow/recursive.rs:125-237 | when the row order lists each row of a state once, the mutations of an inlined call are exactly those the rows of its return summary produce, and there are at most as many as the summary has rows |
| Recursive.RecurseIntoCall | crates/flowistry/src/infoflow/recursive.rs:20-242 | returns true exactly when eligible. On a rejection, state, stack, cache and mutations are unchanged, and the reached-library flag is raised only for a non-local callee. On success, the cache is the old cache with the callee's flow (the cached one, or the one computed on a miss), the reached-library flag is also raised when the nested analysis of a missed callee raised it, and the state is the transfer of exactly the call's mutations |
| Recursive.Inline | crates/flowistry/src/infoflow/recursive.rs:117-241 | inlining a callee leaves the body stack alone, stores the callee's flow in the cache, raises the reached-library flag exactly when it was raised or the nested analysis of a missed callee raises it, and hands exactly the call's mutations to the transfer function |
| Recursive.CacheIsTransparent | crates/flowistry/src/infoflow/recursive.rs:117-122 | a cache that agrees with the analysis changes neither the answer, the state nor the mutations, and it still agrees afterwards |
| DirectInfluence.AddAll | crates/flowistry_ide/src/focus/direct_influence.rs:19-23 | `add` records the location in exactly the rows of the given aliases and touches no other location |
| DirectInfluence.AddInputs | crates/flowistry_ide/src/focus/direct_influence.rs:29-31 | the location is recorded exactly for the read-only aliases of the inputs |
| DirectInfluence.AddMutation | crates/flowistry_ide/src/focus/direct_influence.rs:25-34 | the location is recorded exactly for the places a mutation touches |
| DirectInfluence.AddStep | crates/flowistry_ide/src/focus/direct_influence.rs:18-35 | the location is recorded exactly for the places some mutation at that location touches |
| DirectInfluence.Build | crates/flowistry_ide/src/focus/direct_influence.rs:15-42 | a location is in a place's row exactly when some mutation at that location touches the place |
| DirectInfluence.BuildSplits | crates/flowistry_ide/src/focus/direct_influence.rs:18-36 | building over a concatenated walk equals the join of the two tables |
| DirectInfluence.Concat | crates/flowistry_ide/src/focus/direct_influence.rs:46-56 | the flattened rows hold exactly the locations of the listed aliases, each once per alias recording it |
| DirectInfluence.Lookup | crates/flowistry_ide/src/focus/direct_influence.rs:44-57 | lists exactly the locations in the rows of the target's read-only aliases, a location once per alias that records it |
| DirectInfluence.LookupAfterBuild | crates/flowistry_ide/src/focus/direct_influence.rs:15-57 | after `build`, a lookup lists a location exactly when a mutation there touched an alias of the target |
| DirectInfluence.LookupUntouched | crates/flowistry_ide/src/focus/direct_influence.rs:15-57 | a target none of whose aliases any mutation touches has an empty lookup |

A mutation's inputs are the rows whose dependencies are a subset of the mutated row's (`child_deps.is_superset(deps)`, `recursive.rs:215`), the mutated row itself included; `Recursive.Inputs` keeps exactly those rows.

## Left out

- The `indexical` crate's value-keyed `IndexMatrix`, used by `recursive.rs` and `direct_influence.rs`, is not part of this model. It is modelled as a map from places to location sets, with a missing row reading as empty (`PlaceMatrix`).
- `utils::arg_places` is not part of this model. It is taken to pair each argument position with the argument's place, skipping constants (`ArgumentPlace`).
- The mutation visitor (`ModularMutationVisitor`), `PlaceInfo::reachable_values` and `compute_flow` are parameters. The first is a sequence of steps, the second a function, the third a pair of `Compiler` fields: the flow it returns, and whether the nested analysis raised the reached-library flag. The nested analysis runs under the caller's body stack (recursive.rs:108-115 consults it), so a `Compiler` value stands for one caller analysis, whose body stack is fixed, as is the cache that goes with it. Their own behaviour is outside the model.
- The caller's `transfer_function` is an opaque `Compiler` field. The model states only that it receives exactly the call's mutations at the call's location.
- The iteration order of hash maps and hash sets (a summary's rows, an alias set) is a parameter. The row order is required to list every row of a state exactly once (`Recursive.ListsRows`), as iterating a map does. The bitset's order is ascending and is modelled as such.
- The type-walking closure test and field visibility are `Compiler` queries, together with the rest of rustc's type machinery: `fn_sig`, HIR lookup, the unsafety check, `projection_ty_core`.
- `Recursive.ArgumentNumber` does not truncate to `u8`. The corrected argument number is the position itself, so a callee with more than 256 parameters would wrap in the source.
- `Recursive.ArgumentNumberAsWritten` follows release-build arithmetic (`as u8` truncation, then wrapping subtraction). A debug build panics instead when the caller local is a multiple of 256.
- `Indexed.IsSuperset` and `Indexed.Join` (on index sets) carry no contract of their own. Their behaviour is stated through `Indexed.SetEq`, `Indexed.JoinSelfOrEmpty` and `Indexed.JoinUpperBoundIdempotent`.
- `indices`, `iter` and `iter_enumerated` are modelled as `Indexed.Elements`, composed with `Indexed.Value`. `to_hybrid` and `clone` are representation changes and are left out.
- The `Debug` and `DebugWithContext` implementations, and the logging, are left out: they only format output.
- The `ToIndex` conversions are folded into the callers, which take indices directly or call `Indexed.Index`.
- A panic of `value`, `index`, an out-of-domain bitset insert, or the domain-size assertion of the bitset operations (`union`, `subtract`, `intersect`, `superset`) becomes a precondition, except in `Indexed.MatrixEqAsWritten`, where every panic of `eq` is the answer `None`.
- `crates/flowistry/src/mir/mod.rs` (the `FlowistryInput` trait and its implementation, which fetch a body with borrowck facts) and `crates/flowistry/src/pdg/mod.rs` (the `compute_pdg` wrapper) are outside the core and are not modelled.
- Indexed.Contains, Indexed.Len and Indexed.Row are the direct reads of the bitset (src/core/indexed.rs:136-138), the domain's index vector (src/core/indexed.rs:78-80) and the row vector; they carry no contract of their own, and every other contract is stated in terms of them.
- Recursive.MutationFor, Recursive.CallMutations and Recursive.RecurseIntoCall record the corrected argument number, the callee argument's position `child.local - 1`, where the source computes `parent.local as u8 - 1` (recursive.rs:229); the number as written is `Recursive.ArgumentNumberAsWritten`, and the Findings table gives the input on which the two differ.

## Findings

| source | as written | input that shows it | evidently intended | confidence | as-written member | corrected member |
|---|---|---|---|---|---|---|
| src/core/indexed.rs:302-311 | `eq` first compares the lengths of the two row vectors, then walks every row index up to the highest one stored and unwraps its own row at each | a matrix holding only `(1, 0)` compared with itself: row 0 is below the highest row but was never stored, so `row(0).unwrap()` panics; and a matrix whose row 0 was unioned with the empty set compared with a new matrix answers false, though both relations are empty | equality of the relations, an unstored or empty row counting as empty | not executed | Indexed.MatrixEqAsWritten, Indexed.MatrixEqPanicsOnUntouchedRow, Indexed.MatrixEqCountsStoredEmptyRows | Indexed.MatrixEq |
| crates/flowistry/src/infoflow/recursive.rs:229 | the argument number of a mutated argument is computed from the caller place's local (`parent.local as u8 - 1`) | `f(move _5)` whose callee writes through `_1`: the number is 4, but the call has one argument, at position 0 | the callee argument's position, `child.local - 1` | not executed | Recursive.ArgumentNumberAsWritten, Recursive.ArgumentNumberAsWrittenMisnamesArgument | Recursive.MutationFor |

=== FILE: direct_influence.dfy ===
/**
 * The direct-influence table behind focus mode: for every place, the locations
 * whose mutations wrote (or read) a value that place may alias.  Building it
 * walks the body's mutations once; looking a place up lists the recorded
 * locations of each of its aliases.
 */
module DirectInfluence {
  import opened Places
  import PlaceMatrix
  import Indexed

  type Matrix = PlaceMatrix.Matrix

  datatype Mutability = Not | Mut

  /** `reachable_values(place, mutability)`: the places a place may alias, in the
      iteration order of the alias analysis' hash set. */
  type Reach = (Place, Mutability) -> seq<Place>

  /** The mutations the mutation visitor reports at one location of the body. */
  datatype Step = Step(location: nat, mutations: seq<Mutation>)

  // ---------------------------------------------------------------------------
  // Declarative reading of the table
  // ---------------------------------------------------------------------------

  /** `p` is an alias of one of the mutation's inputs (read-only) or of its mutated place. */
  ghost predicate TouchedBy(reach: Reach, m: Mutation, p: Place) {
    || (exists i :: 0 <= i < |m.inputs| && p in reach(m.inputs[i], Not))
    || p in reach(m.mutated, Mut)
  }

  /** Some mutation reported at the step touches `p`. */
  ghost predicate TouchedAt(reach: Reach, s: Step, p: Place) {
    exists j :: 0 <= j < |s.mutations| && TouchedBy(reach, s.mutations[j], p)
  }

  /** Some step reported at `loc` touches `p`. */
  ghost predicate Influences(reach: Reach, steps: seq<Step>, p: Place, loc: nat) {
    exists k :: 0 <= k < |steps| && steps[k].location == loc && TouchedAt(reach, steps[k], p)
  }

  // ---------------------------------------------------------------------------
  // build
  // ---------------------------------------------------------------------------

  /** The closure `add`: records `loc` in the row of every alias. */
  function AddAll(inf: Matrix, aliases: seq<Place>, loc: nat): (r: Matrix)
    ensures forall q :: loc in PlaceMatrix.Row(r, q) <==> loc in PlaceMatrix.Row(inf, q) || q in aliases
    ensures forall q, l :: l != loc ==> (l in PlaceMatrix.Row(r, q) <==> l in PlaceMatrix.Row(inf, q))
  {
    if aliases == [] then inf
    else
      var init := aliases[..|aliases| - 1];
      assert forall q :: q in aliases <==> q in init || q == aliases[|aliases| - 1];
      PlaceMatrix.Insert(AddAll(inf, init, loc), aliases[|aliases| - 1], loc)
  }

  /** Every input of one mutation, added read-only. */
  function AddInputs(inf: Matrix, reach: Reach, inputs: seq<Place>, loc: nat): (r: Matrix)
    ensures forall q :: loc in PlaceMatrix.Row(r, q) <==>
      loc in PlaceMatrix.Row(inf, q) || exists i :: 0 <= i < |inputs| && q in reach(inputs[i], Not)
    ensures forall q, l :: l != loc ==> (l in PlaceMatrix.Row(r, q) <==> l in PlaceMatrix.Row(inf, q))
  {
    if inputs == [] then inf
    else
      var n := |inputs| - 1;
      var r := AddAll(AddInputs(inf, reach, inputs[..n], loc), reach(inputs[n], Not), loc);
      assert forall q :: (exists i :: 0 <= i < |inputs| && q in reach(inputs[i], Not)) <==>
        (exists i :: 0 <= i < n && q in reach(inputs[..n][i], Not)) || q in reach(inputs[n], Not);
      r
  }

  /** One mutation: its inputs, then its mutated place with mutable reachability. */
  function AddMutation(inf: Matrix, reach: Reach, m: Mutation, loc: nat): (r: Matrix)
    ensures forall q :: loc in PlaceMatrix.Row(r, q) <==> loc in PlaceMatrix.Row(inf, q) || TouchedBy(reach, m, q)
    ensures forall q, l :: l != loc ==> (l in PlaceMatrix.Row(r, q) <==> l in PlaceMatrix.Row(inf, q))
  {
    AddAll(AddInputs(inf, reach, m.inputs, loc), reach(m.mutated, Mut), loc)
  }

  /** All mutations the visitor reports at one location. */
  function AddStep(inf: Matrix, reach: Reach, mutations: seq<Mutation>, loc: nat): (r: Matrix)
    ensures forall q :: loc in PlaceMatrix.Row(r, q) <==>
      loc in PlaceMatrix.Row(inf, q) || TouchedAt(reach, Step(loc, mutations), q)
    ensures forall q, l :: l != loc ==> (l in PlaceMatrix.Row(r, q) <==> l in PlaceMatrix.Row(inf, q))
  {
    if mutations == [] then inf
    else
      var n := |mutations| - 1;
      var r := AddMutation(AddStep(inf, reach, mutations[..n], loc), reach, mutations[n], loc);
      assert forall q :: TouchedAt(reach, Step(loc, mutations), q) <==>
        TouchedAt(reach, Step(loc, mutations[..n]), q) || TouchedBy(reach, mutations[n], q) by {
        forall q ensures TouchedAt(reach, Step(loc, mutations), q) ==>
          TouchedAt(reach, Step(loc, mutations[..n]), q) || TouchedBy(reach, mutations[n], q) {
          if TouchedAt(reach, Step(loc, mutations), q) {
            var j :| 0 <= j < |mutations| && TouchedBy(reach, mutations[j], q);
            if j < n {
              assert mutations[..n][j] == mutations[j];
            }
          }
        }
        forall q ensures TouchedAt(reach, Step(loc, mutations[..n]), q) ==>
          TouchedAt(reach, Step(loc, mutations), q) {
          if TouchedAt(reach, Step(loc, mutations[..n]), q) {
            var j :| 0 <= j < n && TouchedBy(reach, mutations[..n][j], q);
            assert mutations[j] == mutations[..n][j];
          }
        }
      }
      r
  }

  /** `DirectInfluence::build`: folds every step of the body, in visiting order,
      into an initially empty table. */
  function Build(reach: Reach, steps: seq<Step>): (r: Matrix)
    ensures forall p, loc: nat :: loc in PlaceMatrix.Row(r, p) <==> Influences(reach, steps, p, loc)
  {
    if steps == [] then map[]
    else
      var n := |steps| - 1;
      var prev := Build(reach, steps[..n]);
      var r := AddStep(prev, reach, steps[n].mutations, steps[n].location);
      BuildStep(reach, steps, prev, r);
      r
  }

  /** The inductive step of `Build`: appending one step extends `Influences` by that step. */
  lemma BuildStep(reach: Reach, steps: seq<Step>, prev: Matrix, r: Matrix)
    requires |steps| > 0
    requires forall p, loc: nat :: loc in PlaceMatrix.Row(prev, p) <==> Influences(reach, steps[..|steps| - 1], p, loc)
    requires r == AddStep(prev, reach, steps[|steps| - 1].mutations, steps[|steps| - 1].location)
    ensures forall p, loc: nat :: loc in PlaceMatrix.Row(r, p) <==> Influences(reach, steps, p, loc)
  {
    var n := |steps| - 1;
    var last := steps[n];
    assert Step(last.location, last.mutations) == last;
    forall p, loc: nat
      ensures Influences(reach, steps, p, loc) <==>
        Influences(reach, steps[..n], p, loc) || (loc == last.location && TouchedAt(reach, last, p))
    {
      if Influences(reach, steps, p, loc) {
        var k :| 0 <= k < |steps| && steps[k].location == loc && TouchedAt(reach, steps[k], p);
        if k < n {
          assert steps[..n][k] == steps[k];
        }
      }
      if Influences(reach, steps[..n], p, loc) {
        var k :| 0 <= k < n && steps[..n][k].location == loc && TouchedAt(reach, steps[..n][k], p);
        assert steps[k] == steps[..n][k];
      }
    }
  }

  /** The table is independent of how the body's steps are split: building the
      concatenation equals joining the two tables row by row. */
  lemma {:induction false} BuildSplits(reach: Reach, a: seq<Step>, b: seq<Step>)
    ensures forall p ::
      PlaceMatrix.Row(Build(reach, a + b), p) == PlaceMatrix.Row(PlaceMatrix.Join(Build(reach, a), Build(reach, b)), p)
  {
    var ab := Build(reach, a + b);
    var j := PlaceMatrix.Join(Build(reach, a), Build(reach, b));
    forall p ensures PlaceMatrix.Row(ab, p) == PlaceMatrix.Row(j, p) {
      forall loc: nat ensures loc in PlaceMatrix.Row(ab, p) <==> loc in PlaceMatrix.Row(j, p) {
        if Influences(reach, a + b, p, loc) {
          var k :| 0 <= k < |a + b| && (a + b)[k].location == loc && TouchedAt(reach, (a + b)[k], p);
          if k < |a| {
            assert (a + b)[k] == a[k];
          } else {
            assert (a + b)[k] == b[k - |a|];
          }
        }
        if Influences(reach, a, p, loc) {
          var k :| 0 <= k < |a| && a[k].location == loc && TouchedAt(reach, a[k], p);
          assert (a + b)[k] == a[k];
        }
        if Influences(reach, b, p, loc) {
          var k :| 0 <= k < |b| && b[k].location == loc && TouchedAt(reach, b[k], p);
          assert (a + b)[|a| + k] == b[k];
        }
      }
    }
  }

  // ---------------------------------------------------------------------------
  // lookup
  // ---------------------------------------------------------------------------

  /** How many of the listed aliases have `loc` in their row. */
  function AliasCount(inf: Matrix, aliases: seq<Place>, loc: nat): nat {
    if aliases == [] then 0
    else (if loc in PlaceMatrix.Row(inf, aliases[0]) then 1 else 0) + AliasCount(inf, aliases[1..], loc)
  }

  /** The locations of each alias' row, in ascending order, one alias after another. */
  function Concat(inf: Matrix, aliases: seq<Place>): (r: seq<nat>)
    ensures forall loc :: loc in r <==> exists i :: 0 <= i < |aliases| && loc in PlaceMatrix.Row(inf, aliases[i])
    ensures forall loc :: multiset(r)[loc] == AliasCount(inf, aliases, loc)
  {
    if aliases == [] then []
    else
      var head := Indexed.Elements(PlaceMatrix.Row(inf, aliases[0]));
      var r := head + Concat(inf, aliases[1..]);
      OnceEach(head);
      assert forall i :: 0 < i < |aliases| ==> aliases[i] == aliases[1..][i - 1];
      assert forall i :: 0 <= i < |aliases| - 1 ==> aliases[1..][i] == aliases[i + 1];
      r
  }

  /** A strictly increasing sequence lists each of its values exactly once. */
  lemma {:induction false} OnceEach(r: seq<nat>)
    requires forall i, j :: 0 <= i < j < |r| ==> r[i] < r[j]
    ensures forall x :: multiset(r)[x] == if x in r then 1 else 0
  {
    if r != [] {
      OnceEach(r[1..]);
      assert r == [r[0]] + r[1..];
      assert r[0] !in r[1..];
    }
  }

  /** `DirectInfluence::lookup`: the influencing locations of every read-only
      alias of the target, a location listed once per alias that records it. */
  function Lookup(inf: Matrix, reach: Reach, target: Place): (r: seq<nat>)
    ensures forall loc :: loc in r <==>
      exists a :: a in reach(target, Not) && loc in PlaceMatrix.Row(inf, a)
    ensures forall loc :: multiset(r)[loc] == AliasCount(inf, reach(target, Not), loc)
  {
    var aliases := reach(target, Not);
    var r := Concat(inf, aliases);
    assert forall a :: a in aliases <==> exists i :: 0 <= i < |aliases| && aliases[i] == a;
    r
  }

  /** Looking up in a built table lists exactly the locations of steps that
      touch some alias of the target. */
  lemma LookupAfterBuild(reach: Reach, steps: seq<Step>, target: Place, loc: nat)
    ensures loc in Lookup(Build(reach, steps), reach, target) <==>
      exists a :: a in reach(target, Not) && Influences(reach, steps, a, loc)
  {
  }

  /** A target none of whose aliases any mutation touches has no influences. */
  lemma LookupUntouched(reach: Reach, steps: seq<Step>, target: Place)
    requires forall a, k :: a in reach(target, Not) && 0 <= k < |steps| ==> !TouchedAt(reach, steps[k], a)
    ensures Lookup(Build(reach, steps), reach, target) == []
  {
    var inf := Build(reach, steps);
    var r := Lookup(inf, reach, target);
    var counts: multiset<nat> := multiset(r);
    forall loc: nat ensures counts[loc] == 0 {
      assert loc !in r;
    }
    assert counts == multiset{};
  }
}

=== FILE: indexed.dfy ===
/**
 * The indexed relation substrate: an interning domain that maps values to dense
 * indices, sets of such indices, and a row -> set-of-columns matrix with a
 * lattice join.  The hybrid dense/sparse bitset is modelled as a plain
 * `set<nat>`; the sparse matrix keeps the layout of a growable vector of
 * optional rows, where a row index that was never touched holds `None`.
 */
module Indexed {
  import opened Wrappers

  /** The outcome of an in-place operation: the value afterwards and the flag it returns. */
  datatype Update<T> = Update(after: T, changed: bool)

  // ------------------------------------------------------------------ domains

  /** An interning domain: the index -> value vector and the value -> index table. */
  datatype Domain<T> = Domain(indexToValue: seq<T>, valueToIndex: map<T, nat>)

  /** The value -> index table that `new` collects from `(value, index)` pairs in
      index order: a value listed twice keeps the index of its last occurrence. */
  function IndexTable<T(==,!new)>(values: seq<T>): (m: map<T, nat>)
    ensures forall v :: v in m <==> v in values
    ensures forall v :: v in m ==> m[v] < |values| && values[m[v]] == v
    ensures forall v, j :: v in m && m[v] < j < |values| ==> values[j] != v
  {
    if values == [] then map[]
    else
      var n := |values| - 1;
      IndexTable(values[..n])[values[n] := n]
  }

  /** A domain as `new` builds it. */
  predicate WellFormed<T(==,!new)>(d: Domain<T>) {
    d.valueToIndex == IndexTable(d.indexToValue)
  }

  /** Every interned value's index is in range and points back at it. */
  ghost predicate Consistent<T(!new)>(d: Domain<T>) {
    forall v :: v in d.valueToIndex ==>
      d.valueToIndex[v] < |d.indexToValue| && d.indexToValue[d.valueToIndex[v]] == v
  }

  function NewDomain<T(==,!new)>(values: seq<T>): (d: Domain<T>)
    ensures WellFormed(d) && Consistent(d)
    ensures Len(d) == |values|
    ensures forall v :: v in d.valueToIndex <==> v in values
  {
    Domain(values, IndexTable(values))
  }

  /** The value at an index; an index outside the domain is a fatal `unwrap`. */
  function Value<T>(d: Domain<T>, i: nat): T
    requires i < Len(d)
  {
    d.indexToValue[i]
  }

  /** The index of a value; a value outside the domain is a fatal `unwrap`. */
  function Index<T(==)>(d: Domain<T>, v: T): nat
    requires v in d.valueToIndex
  {
    d.valueToIndex[v]
  }

  function Len<T>(d: Domain<T>): nat {
    |d.indexToValue|
  }

  predicate Distinct<T(==)>(s: seq<T>) {
    forall i, j :: 0 <= i < j < |s| ==> s[i] != s[j]
  }

  /** Interning then looking up gives the value back, duplicates or not. */
  lemma ValueOfIndex<T(!new)>(d: Domain<T>, v: T)
    requires Consistent(d) && v in d.valueToIndex
    ensures Index(d, v) < Len(d) && Value(d, Index(d, v)) == v
  {
  }

  /** Looking up the value at `i` gives `i` back exactly when no later index holds the same value. */
  lemma IndexOfValue<T(!new)>(d: Domain<T>, i: nat)
    requires WellFormed(d) && i < Len(d)
    ensures Value(d, i) in d.valueToIndex
    ensures Index(d, Value(d, i)) == i <==>
            forall j :: i < j < Len(d) ==> d.indexToValue[j] != d.indexToValue[i]
  {
  }

  /** For a domain built from distinct values both round trips hold. */
  lemma DistinctRoundTrip<T(!new)>(values: seq<T>, i: nat)
    requires Distinct(values) && i < |values|
    ensures Len(NewDomain(values)) == |values|
    ensures values[i] in NewDomain(values).valueToIndex
    ensures Index(NewDomain(values), Value(NewDomain(values), i)) == i
    ensures Value(NewDomain(values), Index(NewDomain(values), values[i])) == values[i]
  {
    IndexOfValue(NewDomain(values), i);
  }

  // ------------------------------------------------------------- index sets

  /** A set of indices into a domain of `domainSize` values. */
  datatype IndexSet = IndexSet(domainSize: nat, elems: set<nat>) {
    /** Every member is an index of the domain. */
    predicate Valid() {
      forall e :: e in elems ==> e < domainSize
    }
  }

  /** `IndexSet::new`: the empty set over a domain of `domainSize` values. */
  function EmptySet(domainSize: nat): (s: IndexSet)
    ensures s.Valid() && s.domainSize == domainSize
    ensures forall e: nat :: !Contains(s, e)
  {
    IndexSet(domainSize, {})
  }

  predicate Contains(s: IndexSet, e: nat) {
    e in s.elems
  }

  /** Inserting an index outside the domain is a failed assertion in the bitset. */
  function Insert(s: IndexSet, e: nat): (r: IndexSet)
    requires s.Valid() && e < s.domainSize
    ensures r.Valid() && r.domainSize == s.domainSize
    ensures forall x: nat :: Contains(r, x) <==> Contains(s, x) || x == e
  {
    IndexSet(s.domainSize, s.elems + {e})
  }

  /** The bitset's `remove`: reports whether the index was present. */
  function Remove(s: IndexSet, e: nat): (r: Update<IndexSet>)
    ensures r.after.domainSize == s.domainSize
    ensures r.after.elems == s.elems - {e}
    ensures r.changed <==> Contains(s, e)
  {
    Update(IndexSet(s.domainSize, s.elems - {e}), e in s.elems)
  }

  /** Sets over the same domain only: the bitset asserts equal domain sizes. */
  function Union(s: IndexSet, o: IndexSet): (r: Update<IndexSet>)
    requires s.domainSize == o.domainSize
    ensures r.after.domainSize == s.domainSize
    ensures s.Valid() && o.Valid() ==> r.after.Valid()
    ensures r.after.elems == s.elems + o.elems
    ensures r.changed <==> !(o.elems <= s.elems)
  {
    var u := s.elems + o.elems;
    SubsetSameSize(s.elems, u);
    Update(IndexSet(s.domainSize, u), |u| != |s.elems|)
  }

  /** A subset has the size of its superset only when the two are equal. */
  lemma SubsetSameSize<T>(a: set<T>, b: set<T>)
    requires a <= b
    ensures |a| <= |b|
    ensures |a| == |b| <==> a == b
  {
    assert b == a + (b - a);
    if a != b {
      var x :| x in b && x !in a;
      assert x in b - a;
    }
  }

  /** `subtract` as its generic branch runs: remove each index of `o` in turn,
      accumulating whether any removal found the index present. */
  method Subtract(s: IndexSet, o: IndexSet) returns (r: IndexSet, changed: bool)
    requires s.domainSize == o.domainSize
    ensures r.domainSize == s.domainSize
    ensures r.elems == s.elems - o.elems
    ensures changed <==> r.elems != s.elems
    ensures Update(r, changed) == SubtractDense(s, o)
  {
    r := s;
    changed := false;
    var rest := o.elems;
    ghost var done: set<nat> := {};
    while rest != {}
      invariant rest <= o.elems && done == o.elems - rest
      invariant r.domainSize == s.domainSize
      invariant r.elems == s.elems - done
      invariant changed <==> s.elems * done != {}
      decreases rest
    {
      var e :| e in rest;
      var removed := Remove(r, e);
      if e in s.elems {
        assert e in s.elems * (done + {e});
      } else {
        assert s.elems * (done + {e}) == s.elems * done;
      }
      r, changed := removed.after, changed || removed.changed;
      rest, done := rest - {e}, done + {e};
    }
    assert done == o.elems;
    if changed {
      var w :| w in s.elems * o.elems;
      assert w !in r.elems;
    }
  }

  /** `subtract` when both sets are dense: a word-wise difference that reports
      whether any word changed. */
  function SubtractDense(s: IndexSet, o: IndexSet): (r: Update<IndexSet>)
    requires s.domainSize == o.domainSize
    ensures r.after.domainSize == s.domainSize
    ensures r.after.elems == s.elems - o.elems
    ensures r.changed <==> s.elems * o.elems != {}
  {
    var d := s.elems - o.elems;
    SubsetSameSize(d, s.elems);
    Update(IndexSet(s.domainSize, d), |d| != |s.elems|)
  }

  /** `intersect` as its generic branch runs: first collect the indices of `s`
      missing from `o`, then remove them; it reports whether any were collected. */
  method Intersect(s: IndexSet, o: IndexSet) returns (r: IndexSet, changed: bool)
    requires s.domainSize == o.domainSize
    ensures r.domainSize == s.domainSize
    ensures r.elems == s.elems * o.elems
    ensures changed <==> r.elems != s.elems
    ensures Update(r, changed) == IntersectDense(s, o)
  {
    var changes: seq<nat> := [];
    var rest := s.elems;
    while rest != {}
      invariant rest <= s.elems
      invariant forall x :: x in changes <==> x in s.elems - rest && x !in o.elems
      decreases rest
    {
      var e :| e in rest;
      if !Contains(o, e) {
        changes := changes + [e];
      }
      rest := rest - {e};
    }
    changed := |changes| > 0;
    r := s;
    var i := 0;
    while i < |changes|
      invariant i <= |changes|
      invariant r.domainSize == s.domainSize
      invariant forall x :: x in r.elems <==> x in s.elems && x !in changes[..i]
    {
      r := Remove(r, changes[i]).after;
      i := i + 1;
    }
    assert changes[..i] == changes;
    if changed {
      assert changes[0] in changes;
      assert changes[0] in s.elems && changes[0] !in r.elems;
    } else {
      assert forall x :: x in s.elems ==> x in o.elems;
    }
  }

  /** `intersect` when both sets are dense: a word-wise conjunction. */
  function IntersectDense(s: IndexSet, o: IndexSet): (r: Update<IndexSet>)
    requires s.domainSize == o.domainSize
    ensures r.after.domainSize == s.domainSize
    ensures r.after.elems == s.elems * o.elems
    ensures r.changed <==> !(s.elems <= o.elems)
  {
    var d := s.elems * o.elems;
    SubsetSameSize(d, s.elems);
    Update(IndexSet(s.domainSize, d), |d| != |s.elems|)
  }

  /** The number of indices in the set (a population count or an iteration count). */
  function Size(s: IndexSet): (n: nat)
    ensures n == |Elements(s.elems)|
    ensures n == 0 <==> s.elems == {}
    ensures s.Valid() ==> n <= s.domainSize
  {
    SizeBound(s);
    |s.elems|
  }

  /** A well-formed set has no more members than its domain has indices. */
  lemma SizeBound(s: IndexSet)
    ensures s.Valid() ==> |s.elems| <= s.domainSize
  {
    if s.Valid() {
      BelowCardinality(s.domainSize);
      SubsetSameSize(s.elems, Below(s.domainSize));
    }
  }

  /** The indices below `n`. */
  function Below(n: nat): (r: set<nat>)
    ensures forall x: nat :: x in r <==> x < n
  {
    if n == 0 then {} else Below(n - 1) + {n - 1}
  }

  lemma {:induction false} BelowCardinality(n: nat)
    ensures |Below(n)| == n
  {
    if n > 0 {
      BelowCardinality(n - 1);
      assert n - 1 !in Below(n - 1);
      assert Below(n) == Below(n - 1) + {n - 1};
    }
  }

  /** `superset` asserts that both sets range over the same domain size. */
  function IsSuperset(s: IndexSet, o: IndexSet): bool
    requires s.domainSize == o.domainSize
  {
    o.elems <= s.elems
  }

  /** `IndexSet` equality: mutual supersets, over one domain size. */
  function SetEq(a: IndexSet, b: IndexSet): (r: bool)
    requires a.domainSize == b.domainSize
    ensures r <==> a.elems == b.elems
  {
    IsSuperset(a, b) && IsSuperset(b, a)
  }

  /** The lattice join of index sets is `union`. */
  function Join(s: IndexSet, o: IndexSet): (r: Update<IndexSet>)
    requires s.domainSize == o.domainSize
  {
    Union(s, o)
  }

  /** Joining a set with itself or with the empty set changes nothing. */
  lemma JoinSelfOrEmpty(s: IndexSet)
    ensures Join(s, s) == Update(s, false)
    ensures Join(s, EmptySet(s.domainSize)) == Update(s, false)
  {
    assert Join(s, s).after.elems == s.elems;
    assert Join(s, EmptySet(s.domainSize)).after.elems == s.elems;
  }

  /** A second join with the same set reports no change, and the join only grows. */
  lemma JoinUpperBoundIdempotent(s: IndexSet, o: IndexSet)
    requires s.domainSize == o.domainSize
    ensures s.elems <= Join(s, o).after.elems
    ensures o.elems <= Join(s, o).after.elems
    ensures Join(Join(s, o).after, o) == Update(Join(s, o).after, false)
  {
    var j := Join(s, o).after;
    assert Join(j, o).after.elems == j.elems;
  }

  /** `collect_indices`: insert the index of every item into an empty set. */
  function CollectIndices<T(==,!new)>(xs: seq<T>, d: Domain<T>): (s: IndexSet)
    requires Consistent(d)
    requires forall x :: x in xs ==> x in d.valueToIndex
    ensures s.domainSize == Len(d) && s.Valid()
    ensures forall x :: x in xs ==> Contains(s, Index(d, x))
    ensures forall i: nat :: Contains(s, i) ==> i < Len(d) && Value(d, i) in xs
    ensures forall i: nat :: Contains(s, i) <==> exists x :: x in xs && Index(d, x) == i
  {
    if xs == [] then EmptySet(Len(d))
    else
      var n := |xs| - 1;
      assert forall x :: x in xs[..n] ==> x in xs;
      var prev := CollectIndices(xs[..n], d);
      ValueOfIndex(d, xs[n]);
      Insert(prev, Index(d, xs[n]))
  }

  // -------------------------------------------------------- set enumeration

  function Min(s: set<nat>): (m: nat)
    requires s != {}
    ensures m in s && forall x :: x in s ==> m <= x
  {
    MinExists(s);
    var m :| IsLeast(m, s);
    m
  }

  predicate IsLeast(m: nat, s: set<nat>) {
    m in s && forall x :: x in s ==> m <= x
  }

  lemma {:induction false} MinExists(s: set<nat>)
    requires s != {}
    ensures exists m :: IsLeast(m, s)
  {
    var y :| y in s;
    if s != {y} {
      MinExists(s - {y});
      var m :| IsLeast(m, s - {y});
      var least := if y < m then y else m;
      forall x | x in s
        ensures least <= x
      {
        if x != y {
          assert x in s - {y};
        }
      }
      assert IsLeast(least, s);
    } else {
      assert IsLeast(y, s);
    }
  }

  /** The order in which a bitset yields its indices: ascending. */
  function Elements(s: set<nat>): (r: seq<nat>)
    ensures |r| == |s|
    ensures forall x :: x in r <==> x in s
    ensures forall i, j :: 0 <= i < j < |r| ==> r[i] < r[j]
    decreases s
  {
    if s == {} then []
    else
      var m := Min(s);
      var rest := Elements(s - {m});
      PrependLeast(m, rest, s);
      [m] + rest
  }

  /** Putting the least member in front of an ascending listing of the others
      gives an ascending listing of the whole set. */
  lemma PrependLeast(m: nat, rest: seq<nat>, s: set<nat>)
    requires m in s && forall x :: x in s ==> m <= x
    requires |rest| == |s - {m}|
    requires forall x :: x in rest <==> x in s - {m}
    requires forall i, j :: 0 <= i < j < |rest| ==> rest[i] < rest[j]
    ensures |[m] + rest| == |s|
    ensures forall x :: x in [m] + rest <==> x in s
    ensures forall i, j :: 0 <= i < j < |[m] + rest| ==> ([m] + rest)[i] < ([m] + rest)[j]
  {
    assert forall i :: 0 <= i < |rest| ==> rest[i] in s - {m};
    forall i, j | 0 <= i < j < |[m] + rest|
      ensures ([m] + rest)[i] < ([m] + rest)[j]
    {
      assert ([m] + rest)[j] == rest[j - 1];
      if i > 0 {
        assert ([m] + rest)[i] == rest[i - 1];
      }
    }
  }

  // ------------------------------------------------------------ index matrix

  /** A row -> set-of-columns matrix over `numColumns` columns.  `rows` grows to
      cover the highest row ever touched; an index below it that was never touched holds `None`. */
  datatype IndexMatrix = IndexMatrix(numColumns: nat, rows: seq<Option<set<nat>>>) {
    /** Every stored column is in range, and the vector ends at a stored row
        (it only ever grows to reach a row being stored). */
    predicate Valid() {
      && (forall r, c :: 0 <= r < |rows| && rows[r].Some? && c in rows[r].value ==> c < numColumns)
      && (|rows| == 0 || rows[|rows| - 1].Some?)
    }
  }

  function NewMatrix(numColumns: nat): (m: IndexMatrix)
    ensures m.Valid() && m.numColumns == numColumns
    ensures forall r: nat :: RowSet(m, r).elems == {}
  {
    IndexMatrix(numColumns, [])
  }

  /** The stored row, if any (`SparseBitMatrix::row`). */
  function Row(m: IndexMatrix, r: nat): Option<set<nat>> {
    if r < |m.rows| then m.rows[r] else None
  }

  /** `row_set`: the stored row, or the empty set for a row never stored. */
  function RowSet(m: IndexMatrix, r: nat): (s: IndexSet)
    ensures s.domainSize == m.numColumns
    ensures m.Valid() ==> s.Valid()
    ensures Row(m, r).None? ==> s.elems == {}
    ensures Row(m, r).Some? ==> s.elems == Row(m, r).value
  {
    IndexSet(m.numColumns, Row(m, r).GetOr({}))
  }

  /** `row_indices` (and `row`, through the column domain): the row's columns in ascending order. */
  function RowIndices(m: IndexMatrix, r: nat): (cols: seq<nat>)
    ensures forall c: nat :: c in cols <==> Contains(RowSet(m, r), c)
    ensures forall i, j :: 0 <= i < j < |cols| ==> cols[i] < cols[j]
  {
    Elements(RowSet(m, r).elems)
  }

  /** `rows`: every row index up to the highest one touched, stored or not. */
  function Rows(m: IndexMatrix): (rs: seq<nat>)
    ensures forall r: nat :: Row(m, r).Some? ==> r < |rs|
    ensures forall i :: 0 <= i < |rs| ==> rs[i] == i
    ensures |rs| == |m.rows|
    ensures m.Valid() && rs != [] ==> Row(m, |rs| - 1).Some?
  {
    seq(|m.rows|, i => i)
  }

  function Nones(n: nat): (s: seq<Option<set<nat>>>)
    ensures |s| == n && forall i: nat :: 0 <= i < n ==> s[i] == None
  {
    seq(n, i => None)
  }

  /** Makes row `row` stored, padding the vector with untouched rows when it is too short. */
  function EnsureRow(m: IndexMatrix, row: nat): (r: IndexMatrix)
    requires m.Valid()
    ensures r.Valid() && r.numColumns == m.numColumns
    ensures row < |r.rows| && Row(r, row) == Some(RowSet(m, row).elems)
    ensures forall k: nat :: k != row ==> Row(r, k) == Row(m, k)
  {
    var rows := if row < |m.rows| then m.rows else m.rows + Nones(row + 1 - |m.rows|);
    IndexMatrix(m.numColumns, rows[row := Some(RowSet(m, row).elems)])
  }

  /** `insert(row, col)`: adds exactly that pair and reports whether it was absent. */
  function MatrixInsert(m: IndexMatrix, row: nat, col: nat): (r: Update<IndexMatrix>)
    requires m.Valid() && col < m.numColumns
    ensures r.after.Valid() && r.after.numColumns == m.numColumns
    ensures Row(r.after, row).Some?
    ensures forall c: nat :: Contains(RowSet(r.after, row), c) <==> Contains(RowSet(m, row), c) || c == col
    ensures forall k: nat :: k != row ==> Row(r.after, k) == Row(m, k)
    ensures r.changed <==> !Contains(RowSet(m, row), col)
  {
    var e := EnsureRow(m, row);
    var s := Insert(RowSet(e, row), col);
    Update(IndexMatrix(m.numColumns, e.rows[row := Some(s.elems)]), s.elems != RowSet(e, row).elems)
  }

  /** `union_into_row`: unions a set into one row, storing the row even when nothing is added. */
  function UnionIntoRow(m: IndexMatrix, into: nat, from: IndexSet): (r: Update<IndexMatrix>)
    requires m.Valid() && from.Valid() && from.domainSize == m.numColumns
    ensures r.after.Valid() && r.after.numColumns == m.numColumns
    ensures Row(r.after, into).Some?
    ensures RowSet(r.after, into).elems == RowSet(m, into).elems + from.elems
    ensures forall k: nat :: k != into ==> Row(r.after, k) == Row(m, k)
    ensures r.changed <==> !(from.elems <= RowSet(m, into).elems)
  {
    var e := EnsureRow(m, into);
    var u := Union(RowSet(e, into), from);
    Update(IndexMatrix(m.numColumns, e.rows[into := Some(u.after.elems)]), u.changed)
  }

  /** `r` is `m` after the loop of `join` has visited the first `k` row indices of `o`:
      those rows are unioned in, and the flag says whether any of them added a column. */
  ghost predicate JoinedUpTo(m: IndexMatrix, o: IndexMatrix, k: nat, r: Update<IndexMatrix>) {
    && r.after.Valid() && r.after.numColumns == m.numColumns
    && (forall x: nat :: RowSet(r.after, x).elems ==
                         RowSet(m, x).elems + (if x < k then RowSet(o, x).elems else {}))
    && (forall x: nat :: Row(r.after, x).Some? <==> Row(m, x).Some? || (x < k && Row(o, x).Some?))
    && (r.changed <==> exists x: nat :: x < k && !(RowSet(o, x).elems <= RowSet(m, x).elems))
  }

  /** One iteration of the loop of `join`: union row `x` of `o` into the accumulator if `o` stores it. */
  function JoinRow(acc: Update<IndexMatrix>, o: IndexMatrix, x: nat): Update<IndexMatrix>
    requires acc.after.Valid() && o.Valid() && acc.after.numColumns == o.numColumns && x < |o.rows|
  {
    match o.rows[x]
    case None => acc
    case Some(_) =>
      var u := UnionIntoRow(acc.after, x, RowSet(o, x));
      Update(u.after, acc.changed || u.changed)
  }

  lemma JoinRowStep(m: IndexMatrix, o: IndexMatrix, k: nat, prev: Update<IndexMatrix>)
    requires m.Valid() && o.Valid() && m.numColumns == o.numColumns && 0 < k <= |o.rows|
    requires JoinedUpTo(m, o, k - 1, prev)
    ensures JoinedUpTo(m, o, k, JoinRow(prev, o, k - 1))
  {
    var x0 := k - 1;
    var next := JoinRow(prev, o, x0);
    JoinRowStepRows(m, o, k, prev);
    if o.rows[x0].None? {
      assert RowSet(o, x0).elems == {};
    }
    if next.changed && !prev.changed {
      assert !(RowSet(o, x0).elems <= RowSet(m, x0).elems);
    }
  }

  /** The row part of `JoinRowStep`: after visiting index `k - 1`, rows below `k` are unioned in. */
  lemma JoinRowStepRows(m: IndexMatrix, o: IndexMatrix, k: nat, prev: Update<IndexMatrix>)
    requires m.Valid() && o.Valid() && m.numColumns == o.numColumns && 0 < k <= |o.rows|
    requires JoinedUpTo(m, o, k - 1, prev)
    ensures forall x: nat :: RowSet(JoinRow(prev, o, k - 1).after, x).elems ==
                             RowSet(m, x).elems + (if x < k then RowSet(o, x).elems else {})
    ensures forall x: nat :: Row(JoinRow(prev, o, k - 1).after, x).Some? <==>
                             Row(m, x).Some? || (x < k && Row(o, x).Some?)
  {
    var x0 := k - 1;
    var next := JoinRow(prev, o, x0);
    forall x: nat
      ensures RowSet(next.after, x).elems ==
              RowSet(m, x).elems + (if x < k then RowSet(o, x).elems else {})
      ensures Row(next.after, x).Some? <==> Row(m, x).Some? || (x < k && Row(o, x).Some?)
    {
      if o.rows[x0].Some? && x != x0 {
        assert Row(next.after, x) == Row(prev.after, x);
      }
    }
  }

  /** The loop of `join`, run over the first `k` row indices of `o`. */
  function JoinRows(m: IndexMatrix, o: IndexMatrix, k: nat): (r: Update<IndexMatrix>)
    requires m.Valid() && o.Valid() && m.numColumns == o.numColumns && k <= |o.rows|
    ensures JoinedUpTo(m, o, k, r)
    decreases k
  {
    if k == 0 then Update(m, false)
    else
      var prev := JoinRows(m, o, k - 1);
      JoinRowStep(m, o, k, prev);
      JoinRow(prev, o, k - 1)
  }

  /** `join`: unions every stored row of `o` into the same row of `m`, reporting whether any row grew. */
  function MatrixJoin(m: IndexMatrix, o: IndexMatrix): (r: Update<IndexMatrix>)
    requires m.Valid() && o.Valid() && m.numColumns == o.numColumns
    ensures r.after.Valid() && r.after.numColumns == m.numColumns
    ensures forall x: nat :: RowSet(r.after, x).elems == RowSet(m, x).elems + RowSet(o, x).elems
    ensures forall x: nat :: Row(r.after, x).Some? <==> Row(m, x).Some? || Row(o, x).Some?
    ensures r.changed <==> exists x: nat :: RowSet(r.after, x).elems != RowSet(m, x).elems
  {
    JoinRowsReportsGrowth(m, o);
    JoinRows(m, o, |o.rows|)
  }

  /** The flag of the full join loop is "some row grew". */
  lemma JoinRowsReportsGrowth(m: IndexMatrix, o: IndexMatrix)
    requires m.Valid() && o.Valid() && m.numColumns == o.numColumns
    ensures var r := JoinRows(m, o, |o.rows|);
            r.changed <==> exists x: nat :: RowSet(r.after, x).elems != RowSet(m, x).elems
  {
    var r := JoinRows(m, o, |o.rows|);
    GrowthIsChange(m, o, r.after, r.changed);
  }

  /** Unioning the first `k` rows of `o` into `m` changes some row exactly when
      one of those rows had a column `m` lacked. */
  lemma GrowthIsChange(m: IndexMatrix, o: IndexMatrix, after: IndexMatrix, changed: bool)
    requires forall x: nat :: RowSet(after, x).elems ==
                              RowSet(m, x).elems + (if x < |o.rows| then RowSet(o, x).elems else {})
    requires changed <==> exists x: nat :: x < |o.rows| && !(RowSet(o, x).elems <= RowSet(m, x).elems)
    ensures changed <==> exists x: nat :: RowSet(after, x).elems != RowSet(m, x).elems
  {
    if changed {
      var x: nat :| x < |o.rows| && !(RowSet(o, x).elems <= RowSet(m, x).elems);
      assert RowSet(after, x).elems != RowSet(m, x).elems;
    } else {
      forall x: nat ensures RowSet(after, x).elems == RowSet(m, x).elems {
        if x < |o.rows| {
          assert RowSet(o, x).elems <= RowSet(m, x).elems;
        }
      }
    }
  }

  /** The matrices denote the same relation: every row has the same columns. */
  ghost predicate SameRelation(a: IndexMatrix, b: IndexMatrix) {
    forall x: nat :: RowSet(a, x).elems == RowSet(b, x).elems
  }

  /** Joining the same matrix twice: the second join reports no change and adds nothing. */
  lemma MatrixJoinIdempotent(m: IndexMatrix, o: IndexMatrix)
    requires m.Valid() && o.Valid() && m.numColumns == o.numColumns
    ensures !MatrixJoin(MatrixJoin(m, o).after, o).changed
    ensures SameRelation(MatrixJoin(MatrixJoin(m, o).after, o).after, MatrixJoin(m, o).after)
  {
  }

  /** Joining a matrix with itself reports no change; joining with a fresh matrix leaves it as it was. */
  lemma MatrixJoinSelfOrEmpty(m: IndexMatrix)
    requires m.Valid()
    ensures !MatrixJoin(m, m).changed && SameRelation(MatrixJoin(m, m).after, m)
    ensures MatrixJoin(m, NewMatrix(m.numColumns)) == Update(m, false)
  {
  }

  /** Join is monotone in its first argument: a larger matrix stays at least as large after the join. */
  lemma MatrixJoinMonotone(a: IndexMatrix, b: IndexMatrix, o: IndexMatrix)
    requires a.Valid() && b.Valid() && o.Valid()
    requires a.numColumns == b.numColumns == o.numColumns
    requires forall x: nat :: RowSet(a, x).elems <= RowSet(b, x).elems
    ensures forall x: nat :: RowSet(MatrixJoin(a, o).after, x).elems <= RowSet(MatrixJoin(b, o).after, x).elems
  {
  }

  // ------------------------------------------------------- matrix equality

  /** `eq` as written: compares the number of row indices, then walks them,
      unwrapping its own row at each index.  `None` is a panic: the `unwrap`
      on a row index that was never stored, or the domain-size assertion of
      `superset` when two stored rows have different column counts. */
  function MatrixEqAsWritten(a: IndexMatrix, b: IndexMatrix): (r: Option<bool>)
    ensures r == Some(true) ==> SameRelation(a, b)
    ensures r == Some(true) && a.rows != [] ==> a.numColumns == b.numColumns
  {
    if |a.rows| != |b.rows| then Some(false) else RowsAgreeFrom(a, b, 0)
  }

  function RowsAgreeFrom(a: IndexMatrix, b: IndexMatrix, i: nat): (r: Option<bool>)
    requires |a.rows| == |b.rows| && i <= |a.rows|
    ensures r == Some(true) ==> forall x: nat :: i <= x ==> RowSet(a, x).elems == RowSet(b, x).elems
    ensures r == Some(true) && i < |a.rows| ==> a.numColumns == b.numColumns
    decreases |a.rows| - i
  {
    if i == |a.rows| then Some(true)
    else
      match a.rows[i]
      case None => None
      case Some(s) =>
        match b.rows[i]
        case None => Some(false)
        case Some(t) =>
          if a.numColumns != b.numColumns then None
          else if s >= t && t >= s then RowsAgreeFrom(a, b, i + 1) else Some(false)
  }

  /** A matrix holding only `(1, 0)`: row 0 is below the highest row but never stored. */
  function OnlyRowOne(): (m: IndexMatrix)
    ensures m.Valid() && m.numColumns == 1
  {
    MatrixInsert(NewMatrix(1), 1, 0).after
  }

  /** Comparing that matrix with itself panics as written, though the two sides are identical. */
  lemma MatrixEqPanicsOnUntouchedRow()
    ensures OnlyRowOne().rows == [None, Some({0})]
    ensures MatrixEqAsWritten(OnlyRowOne(), OnlyRowOne()) == None
    ensures MatrixEq(OnlyRowOne(), OnlyRowOne())
  {
    assert Nones(2) == [None, None];
    var e := EnsureRow(NewMatrix(1), 1);
    assert e.rows == [None, Some({})];
    assert RowSet(e, 1).elems == {};
    assert Insert(RowSet(e, 1), 0).elems == {0};
    assert MatrixInsert(NewMatrix(1), 1, 0).after.rows == e.rows[1 := Some({0})];
    var m := OnlyRowOne();
    assert m.rows == [None, Some({0})];
    assert RowsAgreeFrom(m, m, 0) == None;
  }

  /** Storing an empty row by `union_into_row` leaves the relation empty, yet `eq`
      as written tells the result apart from a new matrix by the number of row
      indices alone. */
  lemma MatrixEqCountsStoredEmptyRows()
    ensures UnionIntoRow(NewMatrix(1), 0, EmptySet(1)).after.rows == [Some({})]
    ensures MatrixEqAsWritten(UnionIntoRow(NewMatrix(1), 0, EmptySet(1)).after, NewMatrix(1)) == Some(false)
    ensures MatrixEq(UnionIntoRow(NewMatrix(1), 0, EmptySet(1)).after, NewMatrix(1))
  {
    var m := UnionIntoRow(NewMatrix(1), 0, EmptySet(1)).after;
    assert m.rows == [Some({})] by {
      assert Nones(1) == [None];
    }
  }

  /** Two one-row matrices over different column counts, each holding an empty
      row 0: the relations are equal, but `eq` reaches `superset` and panics. */
  lemma MatrixEqPanicsOnColumnMismatch()
    ensures UnionIntoRow(NewMatrix(2), 0, EmptySet(2)).after.rows == [Some({})]
    ensures MatrixEqAsWritten(UnionIntoRow(NewMatrix(1), 0, EmptySet(1)).after,
                              UnionIntoRow(NewMatrix(2), 0, EmptySet(2)).after) == None
    ensures SameRelation(UnionIntoRow(NewMatrix(1), 0, EmptySet(1)).after,
                         UnionIntoRow(NewMatrix(2), 0, EmptySet(2)).after)
  {
    var a := UnionIntoRow(NewMatrix(1), 0, EmptySet(1)).after;
    var b := UnionIntoRow(NewMatrix(2), 0, EmptySet(2)).after;
    assert Nones(1) == [None];
    assert a.rows == [Some({})] && b.rows == [Some({})];
  }

  /** Equality of the relations two matrices denote, comparing every row index
      below the longer of the two, an untouched row counting as empty. */
  function MatrixEq(a: IndexMatrix, b: IndexMatrix): (r: bool)
    requires a.numColumns == b.numColumns
    ensures r <==> SameRelation(a, b)
  {
    var n := if |a.rows| < |b.rows| then |b.rows| else |a.rows|;
    RowsEqualBelow(a, b, n)
  }

  function RowsEqualBelow(a: IndexMatrix, b: IndexMatrix, k: nat): (r: bool)
    requires a.numColumns == b.numColumns
    ensures r <==> forall x: nat :: x < k ==> RowSet(a, x).elems == RowSet(b, x).elems
    ensures k >= |a.rows| && k >= |b.rows| ==> (r <==> SameRelation(a, b))
    decreases k
  {
    if k == 0 then true
    else RowsEqualBelow(a, b, k - 1) && SetEq(RowSet(a, k - 1), RowSet(b, k - 1))
  }
}

=== FILE: places.dfy ===
/**
 * Memory-location descriptors ("places") and the mutation records that the
 * mutation visitor and the call inliner hand to the transfer function.
 */
module Places {

  /** A local variable of a body; local 0 is the return place, locals 1..n the arguments. */
  type Local = nat

  /** A type, known to the model only by identity. */
  type Ty = nat

  const ReturnPlace: Local := 0

  /** One step of a place's projection.  A field step records the type of the field. */
  datatype Elem =
    | Deref
    | Field(field: nat, ty: Ty)
    | Index(indexLocal: Local)
    | ConstantIndex(offset: nat, minLength: nat, fromEnd: bool)
    | Subslice(from: nat, to: nat, fromEnd: bool)
    | Downcast(variant: nat)
    | OpaqueCast(castTy: Ty)

  /** A root local followed by a projection path. */
  datatype Place = Place(local: Local, proj: seq<Elem>)

  /** A place is indirect when its projection goes through a dereference. */
  predicate IsIndirect(p: Place) {
    Deref in p.proj
  }

  /** Why a place was mutated.  `Argument` carries a u8 argument number. */
  datatype Reason = AssignTarget | Argument(index: nat) | OtherReason

  datatype MutationStatus = Definitely | Possibly

  /** One write: the place written, the places whose values flowed into it, why, and how surely. */
  datatype Mutation = Mutation(mutated: Place, inputs: seq<Place>, reason: Reason, status: MutationStatus)
}

/**
 * The value-keyed matrix behind the flow state and the influence table: each
 * row is named by a place and holds a set of column indices (locations).  A
 * place with no row reads as the empty set.
 */
module PlaceMatrix {
  import opened Places

  type Matrix = map<Place, set<nat>>

  /** `row_set`: the stored row, or the empty set. */
  function Row(m: Matrix, p: Place): set<nat> {
    if p in m then m[p] else {}
  }

  /** `insert(row, col)`: adds exactly one pair. */
  function Insert(m: Matrix, p: Place, col: nat): (r: Matrix)
    ensures Row(r, p) == Row(m, p) + {col}
    ensures forall q :: q != p ==> Row(r, q) == Row(m, q)
    ensures r.Keys == m.Keys + {p}
  {
    m[p := Row(m, p) + {col}]
  }

  /** The lattice join: every row of `o` unioned into the same row of `m`. */
  function Join(m: Matrix, o: Matrix): (r: Matrix)
    ensures forall q :: Row(r, q) == Row(m, q) + Row(o, q)
    ensures r.Keys == m.Keys + o.Keys
  {
    map q | q in m.Keys + o.Keys :: Row(m, q) + Row(o, q)
  }
}

=== FILE: recursive.dfy ===
/**
 * The recursive call inliner (`recurse_into_call`).  At a call terminator it
 * either declines (the caller then treats the call opaquely) or summarises
 * the callee's own flow at its `Return` terminators, translates the callee's
 * return place and arguments into caller places, and hands the resulting
 * mutations to the transfer function at the call's location.
 *
 * Every compiler query is a field of `Compiler`; the thread-local body stack
 * and reached-library flag, and the per-analysis cache, travel in `Env`.
 */
module Recursive {
  import opened Wrappers
  import opened Places
  import PlaceMatrix

  type DefId = nat
  type BodyId = nat

  /** An interned program point of the caller. */
  type Location = nat

  /** The dependency relation attached to a program point: place -> locations. */
  type FlowState = PlaceMatrix.Matrix

  /** The type of a constant callee: a function item, or anything else. */
  datatype ConstTy = FnDef(def: DefId) | OtherConstTy

  datatype Operand = Copy(copied: Place) | Move(moved: Place) | Constant(ty: ConstTy) {
    /** The place an operand reads, if it reads one. */
    function PlaceOf(): Option<Place> {
      match this
      case Copy(p) => Some(p)
      case Move(p) => Some(p)
      case Constant(_) => None
    }
  }

  /** A `Call` terminator of the caller. */
  datatype Call = Call(func: Operand, args: seq<Operand>, destination: Place)

  /** A callee block as the summary needs it: whether its terminator is
      `Return`, and the callee's flow state at that terminator. */
  datatype BlockExit = BlockExit(isReturn: bool, state: FlowState)

  /** The callee's computed flow, with the two facts of its body the inliner reads. */
  datatype CalleeFlow = CalleeFlow(argCount: nat, blocks: seq<BlockExit>)

  /** The compiler queries and external analyses the inliner consults. */
  datatype Compiler = Compiler(
    // the signature's output type is the never type
    returnsNever: DefId -> bool,
    // None: the item is outside the local crate; Some(None): local, but it has no body
    localBody: DefId -> Option<Option<BodyId>>,
    // the unsafety check found used unsafe blocks
    usesUnsafe: DefId -> bool,
    // the caller-side type of the place contains an FnOnce or FnMut closure
    capturesMutably: Place -> bool,
    // the callee's own flow analysis
    computeFlow: BodyId -> CalleeFlow,
    // that analysis reaches a non-local callee through its own call terminators,
    // raising the reached-library flag on the way
    flowReachesLibrary: BodyId -> bool,
    // the place has unit type in the given callee body
    isUnit: (BodyId, Place) -> bool,
    // the caller-side type of a place
    callerTy: Place -> Ty,
    // None: the type is not an ADT; Some(v): whether the field is visible from the caller
    fieldVisible: (Ty, nat) -> Option<bool>,
    // the type reached by one projection step
    projectTy: (Ty, Elem) -> Ty,
    // the iteration order of a flow state's rows
    rowOrder: FlowState -> seq<Place>,
    // the caller's transfer function applied to a list of mutations at a location
    transfer: (FlowState, seq<Mutation>, Location) -> FlowState
  )

  /** The thread-local and per-analysis state the inliner reads and writes:
      bodies under analysis, the reached-library flag (`None` when no flag is
      installed), and the cache of callee flows. */
  datatype Env = Env(bodyStack: seq<BodyId>, reachedLibrary: Option<bool>, cache: map<BodyId, CalleeFlow>)

  /** The answer of the inliner, the caller's state and `Env` afterwards, and
      the mutations it passed to the transfer function. */
  datatype Outcome = Outcome(recursed: bool, state: FlowState, env: Env, mutations: seq<Mutation>)

  // ------------------------------------------------------------- rejection

  datatype Rejection =
    | NotConstant | NotFnDef | ReturnsNever | NotLocal | NoBody
    | UsesUnsafe | ClosureArgument | AlreadyOnStack

  datatype Decision = Reject(why: Rejection) | Recurse(def: DefId, body: BodyId)

  /** The function item a call names, when the callee is a constant of function-item type. */
  function Callee(call: Call): Option<DefId> {
    match call.func
    case Constant(FnDef(d)) => Some(d)
    case _ => None
  }

  /** Some argument that is a place has a type holding an FnOnce or FnMut closure. */
  predicate AnyClosureArgument(c: Compiler, args: seq<Operand>) {
    exists j :: 0 <= j < |args| && args[j].PlaceOf().Some? && c.capturesMutably(args[j].PlaceOf().value)
  }

  /** All the conditions under which the inliner recurses, at once. */
  ghost predicate Eligible(c: Compiler, call: Call, env: Env) {
    && Callee(call).Some?
    && !c.returnsNever(Callee(call).value)
    && c.localBody(Callee(call).value).Some?
    && c.localBody(Callee(call).value).value.Some?
    && !c.usesUnsafe(Callee(call).value)
    && !AnyClosureArgument(c, call.args)
    && c.localBody(Callee(call).value).value.value !in env.bodyStack
  }

  /** The chain of checks, in the order the source makes them. */
  function Decide(c: Compiler, call: Call, env: Env): (d: Decision)
    ensures d.Recurse? <==> Eligible(c, call, env)
    ensures d.Recurse? ==> Callee(call) == Some(d.def) && c.localBody(d.def) == Some(Some(d.body))
    ensures d == Reject(NotLocal) <==>
              Callee(call).Some? && !c.returnsNever(Callee(call).value) && c.localBody(Callee(call).value).None?
    ensures AnyClosureArgument(c, call.args) ==> d.Reject?
  {
    if !call.func.Constant? then Reject(NotConstant)
    else if !call.func.ty.FnDef? then Reject(NotFnDef)
    else
      var def := call.func.ty.def;
      if c.returnsNever(def) then Reject(ReturnsNever)
      else
        match c.localBody(def)
        case None => Reject(NotLocal)
        case Some(None) => Reject(NoBody)
        case Some(Some(body)) =>
          if c.usesUnsafe(def) then Reject(UsesUnsafe)
          else if AnyClosureArgument(c, call.args) then Reject(ClosureArgument)
          else if body in env.bodyStack then Reject(AlreadyOnStack)
          else Recurse(def, body)
  }

  // --------------------------------------------------------------- summary

  /** The join of the callee's states at every block whose terminator is `Return`,
      starting from the empty state. */
  function ReturnState(blocks: seq<BlockExit>): (s: FlowState)
    ensures forall p :: p in s <==> exists b :: 0 <= b < |blocks| && blocks[b].isReturn && p in blocks[b].state
    ensures forall p, l :: l in PlaceMatrix.Row(s, p) <==>
              exists b :: 0 <= b < |blocks| && blocks[b].isReturn && l in PlaceMatrix.Row(blocks[b].state, p)
  {
    if blocks == [] then map[]
    else
      var n := |blocks| - 1;
      var prev := ReturnState(blocks[..n]);
      assert forall b :: 0 <= b < n ==> blocks[..n][b] == blocks[b];
      if blocks[n].isReturn then PlaceMatrix.Join(prev, blocks[n].state) else prev
  }

  // ----------------------------------------------------------- translation

  /** What translation needs to know about one call: the compiler, the callee's
      body and argument count, and the caller's arguments and destination. */
  datatype Site = Site(c: Compiler, body: BodyId, argCount: nat, args: seq<Operand>, destination: Place)

  /** The callee local is one of its arguments `_1 .. _argCount`. */
  predicate IsArg(site: Site, child: Place) {
    1 <= child.local <= site.argCount
  }

  /** The caller place that a callee local stands for: the destination for the
      return place, otherwise the caller's argument at position `local - 1` when
      that argument is a place. */
  function ParentBase(site: Site, child: Place): Option<Place> {
    if child.local == ReturnPlace then Some(site.destination)
    else ArgumentPlace(site, child.local - 1)
  }

  /** The caller's argument at position `j`, when it is a place. */
  function ArgumentPlace(site: Site, j: nat): Option<Place> {
    if j < |site.args| then site.args[j].PlaceOf() else None
  }

  /** A field step whose field is not visible from the caller. */
  predicate Blocks(c: Compiler, ty: Ty, e: Elem) {
    e.Field? && c.fieldVisible(ty, e.field) == Some(false)
  }

  /** A projection step re-annotated with the type it reaches in the caller. */
  function Retyped(e: Elem, ty: Ty): Elem {
    if e.Field? then Field(e.field, ty) else e
  }

  /** Replays the callee's projection on top of a caller place of type `ty`,
      stopping before the first field step the caller cannot see. */
  function Replay(c: Compiler, ty: Ty, elems: seq<Elem>): (r: seq<Elem>)
    ensures |r| <= |elems|
    decreases |elems|
  {
    if elems == [] || Blocks(c, ty, elems[0]) then []
    else
      var next := c.projectTy(ty, elems[0]);
      [Retyped(elems[0], next)] + Replay(c, next, elems[1..])
  }

  /** The type reached after projecting the first `k` steps of `elems` from `ty`. */
  function TyAfter(c: Compiler, ty: Ty, elems: seq<Elem>, k: nat): Ty
    requires k <= |elems|
  {
    if k == 0 then ty else c.projectTy(TyAfter(c, ty, elems, k - 1), elems[k - 1])
  }

  lemma {:induction false} TyAfterShift(c: Compiler, ty: Ty, elems: seq<Elem>, k: nat)
    requires 0 < |elems| && k < |elems|
    ensures TyAfter(c, ty, elems, k + 1) == TyAfter(c, c.projectTy(ty, elems[0]), elems[1..], k)
  {
    if k > 0 {
      TyAfterShift(c, ty, elems, k - 1);
    }
  }

  /** The replayed projection is the callee's, step for step and re-typed, up to
      and excluding the first field the caller cannot see; it stops there and
      nowhere earlier. */
  lemma ReplayCutsAtFirstHiddenField(c: Compiler, ty: Ty, elems: seq<Elem>)
    ensures var r := Replay(c, ty, elems);
            forall i :: 0 <= i < |r| ==>
              !Blocks(c, TyAfter(c, ty, elems, i), elems[i]) &&
              r[i] == Retyped(elems[i], TyAfter(c, ty, elems, i + 1))
    ensures var r := Replay(c, ty, elems);
            |r| < |elems| ==> Blocks(c, TyAfter(c, ty, elems, |r|), elems[|r|])
  {
    ReplayFollowsProjection(c, ty, elems);
    ReplayStopsAtHiddenField(c, ty, elems);
  }

  /** Every replayed step is visible and re-typed with the type the caller reaches. */
  lemma {:induction false} ReplayFollowsProjection(c: Compiler, ty: Ty, elems: seq<Elem>)
    ensures var r := Replay(c, ty, elems);
            forall i :: 0 <= i < |r| ==>
              !Blocks(c, TyAfter(c, ty, elems, i), elems[i]) &&
              r[i] == Retyped(elems[i], TyAfter(c, ty, elems, i + 1))
    decreases |elems|
  {
    if elems != [] && !Blocks(c, ty, elems[0]) {
      var next := c.projectTy(ty, elems[0]);
      var r := Replay(c, ty, elems);
      var tail := Replay(c, next, elems[1..]);
      ReplayFollowsProjection(c, next, elems[1..]);
      TyAfterShift(c, ty, elems, 0);
      forall i | 0 <= i < |r|
        ensures !Blocks(c, TyAfter(c, ty, elems, i), elems[i])
        ensures r[i] == Retyped(elems[i], TyAfter(c, ty, elems, i + 1))
      {
        if i > 0 {
          assert r[i] == tail[i - 1];
          assert elems[i] == elems[1..][i - 1];
          TyAfterShift(c, ty, elems, i - 1);
          TyAfterShift(c, ty, elems, i);
        }
      }
    }
  }

  /** A replay shorter than the callee's projection ends at a hidden field. */
  lemma {:induction false} ReplayStopsAtHiddenField(c: Compiler, ty: Ty, elems: seq<Elem>)
    ensures var r := Replay(c, ty, elems);
            |r| < |elems| ==> Blocks(c, TyAfter(c, ty, elems, |r|), elems[|r|])
    decreases |elems|
  {
    if elems != [] && !Blocks(c, ty, elems[0]) {
      var next := c.projectTy(ty, elems[0]);
      var tail := Replay(c, next, elems[1..]);
      ReplayStopsAtHiddenField(c, next, elems[1..]);
      if |tail| < |elems| - 1 {
        assert elems[|tail| + 1] == elems[1..][|tail|];
        TyAfterShift(c, ty, elems, |tail|);
      }
    }
  }

  /** The source's translatability test on a callee place. */
  predicate CanTranslate(site: Site, child: Place, mutated: bool) {
    child.local == ReturnPlace || (IsArg(site, child) && (!mutated || IsIndirect(child)))
  }

  /** `translate_child_to_parent`: a callee place in caller coordinates, if it has any. */
  function Translate(site: Site, child: Place, mutated: bool): (r: Option<Place>)
    ensures r.None? <==>
              || site.c.isUnit(site.body, child)
              || !CanTranslate(site, child, mutated)
              || ParentBase(site, child).None?
    ensures r.Some? ==>
              var base := ParentBase(site, child).value;
              && r.value.local == base.local
              && base.proj <= r.value.proj
              && r.value.proj[|base.proj|..] == Replay(site.c, site.c.callerTy(base), child.proj)
  {
    if site.c.isUnit(site.body, child) then None
    else if !CanTranslate(site, child, mutated) then None
    else
      match ParentBase(site, child)
      case None => None
      case Some(base) =>
        Some(Place(base.local, base.proj + Replay(site.c, site.c.callerTy(base), child.proj)))
  }

  // ------------------------------------------------------------- mutations

  /** The translated places of the summary rows whose dependencies lie within
      `deps`, in row order (the rows are translated as unmutated). */
  function Inputs(site: Site, summary: FlowState, rows: seq<Place>, deps: set<nat>): (r: seq<Place>)
    ensures |r| <= |rows|
    ensures forall q :: q in r <==>
              exists i :: 0 <= i < |rows| && PlaceMatrix.Row(summary, rows[i]) <= deps &&
                          Translate(site, rows[i], false) == Some(q)
  {
    if rows == [] then []
    else
      var rest := Inputs(site, summary, rows[1..], deps);
      var t := Translate(site, rows[0], false);
      var here := if PlaceMatrix.Row(summary, rows[0]) <= deps && t.Some? then [t.value] else [];
      assert forall i :: 1 <= i < |rows| ==> rows[i] == rows[1..][i - 1];
      assert forall i :: 0 <= i < |rows| - 1 ==> rows[1..][i] == rows[i + 1];
      here + rest
  }

  /** The argument number recorded for a mutated argument, as the source computes
      it: the CALLER place's local, truncated to u8, minus one (wrapping). */
  function ArgumentNumberAsWritten(parent: Place): (n: nat)
    ensures n < 256
    ensures 1 <= parent.local <= 256 ==> n == parent.local - 1
  {
    ((parent.local % 256) + 255) % 256
  }

  /** The argument number of a mutated callee argument `_k`: its position `k - 1`. */
  function ArgumentNumber(child: Place): (n: nat)
    requires child.local != ReturnPlace
  {
    child.local - 1
  }

  /** The mutation, if any, that one summary row contributes. */
  function MutationFor(site: Site, summary: FlowState, rows: seq<Place>, child: Place): (r: Option<Mutation>)
    ensures r.Some? <==>
              Translate(site, child, true).Some? &&
              (child.local == ReturnPlace || |PlaceMatrix.Row(summary, child)| > 1)
    ensures r.Some? ==> r.value.mutated == Translate(site, child, true).value
    ensures r.Some? ==> r.value.inputs == Inputs(site, summary, rows, PlaceMatrix.Row(summary, child))
    ensures r.Some? && child.local == ReturnPlace ==>
              r.value.reason == AssignTarget && r.value.status == Definitely
    ensures r.Some? && child.local != ReturnPlace ==>
              && r.value.status == Possibly
              && r.value.reason.Argument?
              && r.value.reason.index < site.argCount
              && r.value.reason.index + 1 == child.local
              && ArgumentPlace(site, r.value.reason.index) == ParentBase(site, child)
              && ArgumentPlace(site, r.value.reason.index).Some?
              && ArgumentPlace(site, r.value.reason.index).value.local == r.value.mutated.local
  {
    match Translate(site, child, true)
    case None => None
    case Some(parent) =>
      var wasReturn := child.local == ReturnPlace;
      var wasMutated := |PlaceMatrix.Row(summary, child)| > 1;
      if !wasMutated && !wasReturn then None
      else
        var inputs := Inputs(site, summary, rows, PlaceMatrix.Row(summary, child));
        if wasReturn then Some(Mutation(parent, inputs, AssignTarget, Definitely))
        else Some(Mutation(parent, inputs, Argument(ArgumentNumber(child)), Possibly))
  }

  /** A call `f(move _5)` whose callee writes through its argument `_1`: the
      mutated caller place is `(*_5)`, yet the number recorded as written is 4,
      which names no argument of the call; the argument's position is 0. */
  lemma ArgumentNumberAsWrittenMisnamesArgument()
    ensures var site := SingleArgumentSite();
            var child := Place(1, [Deref]);
            && Translate(site, child, true) == Some(Place(5, [Deref]))
            && ArgumentNumberAsWritten(Translate(site, child, true).value) == 4
            && ArgumentPlace(site, 4).None?
            && ArgumentNumber(child) == 0
            && ArgumentPlace(site, 0) == Some(Place(5, []))
  {
    var site := SingleArgumentSite();
    assert Replay(site.c, 0, [Deref]) == [Deref];
  }

  /** A call `f(copy _5, copy _5)` whose callee writes through its second
      argument `_2`: both arguments are rooted at `_5`, and the mutation names
      position 1, the argument actually written. */
  lemma SharedBaseNamesWrittenArgument()
    ensures var site := Site(SingleArgumentSite().c, 0, 2, [Copy(Place(5, [])), Copy(Place(5, []))], Place(0, []));
            var child := Place(2, [Deref]);
            var r := MutationFor(site, map[child := {0, 1}], [], child);
            && r.Some?
            && r.value.mutated == Place(5, [Deref])
            && r.value.reason == Argument(1)
  {
    var site := Site(SingleArgumentSite().c, 0, 2, [Copy(Place(5, [])), Copy(Place(5, []))], Place(0, []));
    assert Replay(site.c, 0, [Deref]) == [Deref];
    assert |{0, 1}| == 2;
  }

  /** A call of a one-argument callee with `move _5`, every field visible. */
  function SingleArgumentSite(): (site: Site)
    ensures site.args == [Move(Place(5, []))] && site.argCount == 1
  {
    var c := Compiler(
      d => false, d => Some(Some(0)), d => false, p => false, b => CalleeFlow(1, []), b => false,
      (b, p) => false, p => 0, (t, f) => None, (t, e) => t, s => [], (s, ms, l) => s);
    Site(c, 0, 1, [Move(Place(5, []))], Place(0, []))
  }

  /** The mutations of all summary rows, in row order. */
  function Mutations(site: Site, summary: FlowState, rows: seq<Place>, todo: seq<Place>): (r: seq<Mutation>)
    ensures |r| <= |todo|
    ensures forall m :: m in r <==>
              exists i :: 0 <= i < |todo| && MutationFor(site, summary, rows, todo[i]) == Some(m)
  {
    if todo == [] then []
    else
      var rest := Mutations(site, summary, rows, todo[1..]);
      var here := MutationFor(site, summary, rows, todo[0]);
      assert forall i :: 1 <= i < |todo| ==> todo[i] == todo[1..][i - 1];
      assert forall i :: 0 <= i < |todo| - 1 ==> todo[1..][i] == todo[i + 1];
      (if here.Some? then [here.value] else []) + rest
  }

  /** The inputs of an emitted mutation are exactly the translated summary rows
      whose dependencies lie within those of the mutated row. */
  lemma InputsAreSmallerRows(site: Site, summary: FlowState, rows: seq<Place>, child: Place, q: Place)
    requires MutationFor(site, summary, rows, child).Some?
    ensures q in MutationFor(site, summary, rows, child).value.inputs <==>
              exists i :: 0 <= i < |rows| &&
                PlaceMatrix.Row(summary, rows[i]) <= PlaceMatrix.Row(summary, child) &&
                Translate(site, rows[i], false) == Some(q)
  {
  }

  // ------------------------------------------------------------ the call

  /** The mutations an inlined call contributes: one per row of the callee's
      return summary that `MutationFor` accepts, the rows taken in the
      summary's iteration order. */
  function CallMutations(c: Compiler, call: Call, body: BodyId, flow: CalleeFlow): (r: seq<Mutation>)
    requires ListsRows(c)
    ensures var summary := ReturnState(flow.blocks);
            |r| <= |summary|
    ensures var summary := ReturnState(flow.blocks);
            var site := Site(c, body, flow.argCount, call.args, call.destination);
            var rows := c.rowOrder(summary);
            forall m :: m in r <==> exists p :: p in summary && MutationFor(site, summary, rows, p) == Some(m)
  {
    var summary := ReturnState(flow.blocks);
    var site := Site(c, body, flow.argCount, call.args, call.destination);
    var rows := c.rowOrder(summary);
    ListedRows(c, summary);
    MutationsOverListing(site, summary, rows);
    Mutations(site, summary, rows, rows)
  }

  /** When the rows are a listing of the summary's rows, the mutations are those
      the summary's rows produce, at most one per row. */
  lemma MutationsOverListing(site: Site, summary: FlowState, rows: seq<Place>)
    requires |rows| == |summary|
    requires forall p :: p in summary <==> exists i :: 0 <= i < |rows| && rows[i] == p
    ensures |Mutations(site, summary, rows, rows)| <= |summary|
    ensures forall m :: m in Mutations(site, summary, rows, rows) <==>
              exists p :: p in summary && MutationFor(site, summary, rows, p) == Some(m)
  {
  }

  /** The row-order oracle lists every row of a state exactly once, as iterating
      a hash map does. */
  ghost predicate ListsRows(c: Compiler) {
    forall s: FlowState :: IsListing(c.rowOrder(s), s)
  }

  /** `rows` lists the rows of `s`, each once. */
  ghost predicate IsListing(rows: seq<Place>, s: FlowState) {
    && (forall p :: p in rows <==> p in s)
    && (forall i, j :: 0 <= i < j < |rows| ==> rows[i] != rows[j])
  }

  /** Under `ListsRows`, the listing of a state has one entry per row. */
  lemma ListedRows(c: Compiler, s: FlowState)
    requires ListsRows(c)
    ensures |c.rowOrder(s)| == |s|
    ensures forall p :: p in s <==> exists i :: 0 <= i < |c.rowOrder(s)| && c.rowOrder(s)[i] == p
  {
    DistinctListingSize(c.rowOrder(s), s.Keys);
  }

  /** A listing without repeats of exactly the members of a set is as long as the set is large. */
  lemma {:induction false} DistinctListingSize(xs: seq<Place>, keys: set<Place>)
    requires forall p :: p in xs <==> p in keys
    requires forall i, j :: 0 <= i < j < |xs| ==> xs[i] != xs[j]
    ensures |xs| == |keys|
  {
    if xs != [] {
      var n := |xs| - 1;
      assert xs[n] !in xs[..n];
      forall p ensures p in xs[..n] <==> p in keys - {xs[n]} {
        if p in xs[..n] {
          var i :| 0 <= i < n && xs[..n][i] == p;
          assert xs[i] == p;
        }
        if p in keys - {xs[n]} {
          assert p in xs;
          var i :| 0 <= i < |xs| && xs[i] == p;
          assert xs[..n][i] == p;
        }
      }
      DistinctListingSize(xs[..n], keys - {xs[n]});
    }
  }

  /** The inlining branch: the callee's flow from the cache, computed (and its
      nested analysis run) on a miss, and the call's mutations transferred. */
  function Inline(c: Compiler, call: Call, location: Location, state: FlowState, env: Env, body: BodyId): (o: Outcome)
    requires ListsRows(c)
    ensures o.recursed && o.env.bodyStack == env.bodyStack
    ensures var flow := if body in env.cache then env.cache[body] else c.computeFlow(body);
            && o.env.cache == env.cache[body := flow]
            && o.mutations == CallMutations(c, call, body, flow)
            && o.state == c.transfer(state, o.mutations, location)
    ensures o.env.reachedLibrary.Some? <==> env.reachedLibrary.Some?
    ensures env.reachedLibrary.Some? ==>
              (o.env.reachedLibrary.value <==>
                env.reachedLibrary.value || (body !in env.cache && c.flowReachesLibrary(body)))
  {
    var miss := body !in env.cache;
    var flow := if miss then c.computeFlow(body) else env.cache[body];
    var flag := if miss && c.flowReachesLibrary(body) && env.reachedLibrary.Some? then Some(true) else env.reachedLibrary;
    var mutations := CallMutations(c, call, body, flow);
    Outcome(true, c.transfer(state, mutations, location), Env(env.bodyStack, flag, env.cache[body := flow]), mutations)
  }

  /** `recurse_into_call`. */
  function RecurseIntoCall(c: Compiler, call: Call, location: Location, state: FlowState, env: Env): (o: Outcome)
    requires ListsRows(c)
    ensures o.recursed <==> Eligible(c, call, env)
    ensures !o.recursed ==>
              o.state == state && o.mutations == [] &&
              o.env.bodyStack == env.bodyStack && o.env.cache == env.cache
    ensures o.env.reachedLibrary.Some? <==> env.reachedLibrary.Some?
    ensures var d := Decide(c, call, env);
            env.reachedLibrary.Some? ==>
              (o.env.reachedLibrary.value <==>
                || env.reachedLibrary.value
                || d == Reject(NotLocal)
                || (d.Recurse? && d.body !in env.cache && c.flowReachesLibrary(d.body)))
    ensures var d := Decide(c, call, env);
            o.recursed ==>
              var flow := if d.body in env.cache then env.cache[d.body] else c.computeFlow(d.body);
              && o.env.bodyStack == env.bodyStack
              && o.env.cache == env.cache[d.body := flow]
              && o.mutations == CallMutations(c, call, d.body, flow)
              && o.state == c.transfer(state, o.mutations, location)
  {
    match Decide(c, call, env)
    case Reject(why) =>
      var flag := if why == NotLocal && env.reachedLibrary.Some? then Some(true) else env.reachedLibrary;
      Outcome(false, state, env.(reachedLibrary := flag), [])
    case Recurse(_, body) =>
      Inline(c, call, location, state, env, body)
  }

  /** The cache holds exactly what the analysis would compute. */
  ghost predicate CacheAgrees(c: Compiler, cache: map<BodyId, CalleeFlow>) {
    forall b :: b in cache ==> cache[b] == c.computeFlow(b)
  }

  /** A cache that agrees with the analysis is unobservable: the answer, the
      state and the mutations are those of an empty cache, and the cache still
      agrees afterwards.  (Only the reached-library flag can differ: a cold
      cache recomputes the callee's flow, which may raise it.) */
  lemma CacheIsTransparent(c: Compiler, call: Call, location: Location, state: FlowState, env: Env)
    requires ListsRows(c) && CacheAgrees(c, env.cache)
    ensures var o := RecurseIntoCall(c, call, location, state, env);
            var cold := RecurseIntoCall(c, call, location, state, env.(cache := map[]));
            && o.recursed == cold.recursed
            && o.state == cold.state
            && o.mutations == cold.mutations
            && CacheAgrees(c, o.env.cache)
  {
  }
}

=== FILE: wrappers.dfy ===
/** The optional-value datatype used throughout the model in place of Rust's `Option`. */
module Wrappers {

  datatype Option<+T> = None | Some(value: T) {

    /** The wrapped value, or `default` when there is none (Rust's `unwrap_or`). */
    function GetOr(default: T): T {
      match this
      case Some(v) => v
      case None => default
    }
  }
}
